=== FILE: README.md ===
# ReviewerAI session and audit orchestration, modelled in Dafny

ReviewerAI lets a signed-in reviewer upload a manuscript PDF, have it scanned
for flagged wording and reviewed, and browse a history of past audits. This
project models the sequential logic of three pieces of it:

- **the backend endpoints** (`Backend`, with string helpers in `Text`): the demo
  login rule and display name, the score and status of an analysis, the names
  and URL of the stored files, the id numbering, and the newest-first
  in-memory audit history;
- **the login form** (`LoginForm`): the `loading` flag around the `/login`
  request and the classification of its reply into a sign-in, an alert or
  nothing;
- **the dashboard** (`Dashboard`): session state, the selected file, the
  current result, the history cache and the active tab, as a transition
  system. Every asynchronous handler is split into discrete events: the user
  action that issues a request, and a later reply that is `Ok(payload)`, an
  HTTP error with a response, or no response at all. Each step yields the new
  state and its effects (requests sent, alerts raised). A `World` adds the
  number of unanswered requests, and `Deliver` admits a user event only when
  the rendered screen offers it.

`Integration` connects them: the backend's login reply as the form classifies
it, and an audit followed by the history refresh it triggers.

The model follows the code where it is looser than a session that clears all cached data on logout:
logout keeps the history cache, the selected file, the loading flag and the
tab; starting an audit clears the current result first, so a failed audit
leaves none; the audit handler itself does not refuse a second start (only the
disabled button does); and an audit reply that arrives after logout still
becomes the current result (`Dashboard.ResultCanOutliveLogout`).

Scores are integer tenths (9.4 is 94). Seed history entries carry no report
fields, so `AuditRecord.details` is optional.

## Model

| member | source | states |
|---|---|---|
| `Text.FirstField` | backend/main.py:107 | `split("@")[0]`: a prefix of the email free of '@', the whole email exactly when it has no '@', and otherwise followed by '@' |
| `Text.FirstFieldUnique` | backend/main.py:107 | any '@'-free prefix that ends at the end or just before an '@' is the first field |
| `Text.Capitalize` | backend/main.py:107 | `capitalize()` keeps the length, upper-cases the first character and lower-cases every later one, so no lower-case first letter and no upper-case letter after it remain |
| `Text.CapitalizeIdempotent` | backend/main.py:107 | capitalizing an already capitalized name changes nothing |
| `Text.CapitalizeIgnoresCase` | backend/main.py:107 | two inputs that agree up to letter case capitalize to the same name |
| `Text.NatToString` | backend/main.py:146 | the decimal rendering of the count is non-empty, all digits, with no leading zero |
| `Text.NatToStringRoundTrip` | backend/main.py:146 | reading the rendered digits back yields the count |
| `Text.NatToStringInjective` | backend/main.py:146 | different counts render differently |
| `Backend.Login` | backend/main.py:106-109 | login succeeds iff the email contains '@' and the password has at least 3 characters; success carries status "success" and the display name, failure is 401 "Invalid Credentials" |
| `Backend.DisplayName` | backend/main.py:107 | the name is as long as the text before the first '@', and is empty exactly when the email is empty or starts with '@' |
| `Backend.DisplayNameShape` | backend/main.py:107 | the name has the local part's length, its first character upper-cased and the rest lower-cased, and contains no '@' |
| `Backend.EmptyNameAccepted` | backend/main.py:106-108 | an email starting with '@' is accepted and yields the empty name |
| `Backend.DisplayNameIgnoresCase` | backend/main.py:107 | emails whose local parts differ only in case give the same name |
| `Backend.ScoreTenths` | backend/main.py:145 | the score lies in [1.0, 9.8], is 9.8 minus a tenth per flag down to 1.0, and stays 1.0 from 88 flags on |
| `Backend.ScoreNonIncreasing` | backend/main.py:145 | more flags never raise the score |
| `Backend.Status` | backend/main.py:148 | "Approved" iff fewer than 5 flags, "Revision Needed" iff 5 or more |
| `Backend.StatusAgreesWithScore` | backend/main.py:145-148 | an approved analysis scores at least 9.4, one needing revision at most 9.3 |
| `Backend.PdfUrl` | backend/main.py:126-135 | the URL is the base URL, then the `/files/` route, then the output file name `reviewed_` + name |
| `Backend.MethodText` | backend/main.py:146 | the methodology sentence is the fixed prefix, the count's decimal digits and the fixed suffix |
| `Backend.InputNeverOverwritesOutput` | backend/main.py:120-126 | the stored upload name `in_…` never equals any output name `reviewed_…` |
| `Backend.PdfUrlIdentifiesFile` | backend/main.py:126-135 | the URL is the base URL, the `/files/` mount route and the output file name; different files get different URLs |
| `Backend.MethodTextReportsCount` | backend/main.py:146 | the methodology sentence is its fixed prefix and suffix around digits that denote the flag count |
| `Backend.NewRecord` | backend/main.py:138-154 | the result's id is the current length plus one; title, date, count and report come from the upload; score and status come from the flag count; the URL, methodology text and statistics text are the fixed constructions |
| `Backend.GetHistory` | backend/main.py:111-114 | `/history` returns the stored list itself, unchanged and in stored order |
| `Backend.Analyze` | backend/main.py:116-158 | stores `in_` + name and outputs `reviewed_` + name with its URL under `/files/`; the result is the record built from the upload with id length plus one; the history grows by one, the result at index 0 and the old entries after it in order |
| `Backend.HistoryNewestFirst` | backend/main.py:111-158 | after an analysis the history starts with its result and continues with the previous history unchanged |
| `Backend.SeedWellNumbered` | backend/main.py:41-46 | the seed's ids are exactly 1..4 and distinct |
| `Backend.SeedDiffersFromAnalyses` | backend/main.py:41-46 | the seed entries have no report fields and one has status "Rejected", which no analysis assigns; every analysis carries report fields |
| `Backend.AnalyzeKeepsNumbering` | backend/main.py:139-157 | if ids are exactly 1..n and distinct, after an analysis they are exactly 1..n+1 and distinct |
| `Backend.ReplayKeepsNumbering` | backend/main.py:139-157 | any sequence of analyses keeps the ids exactly 1..n and distinct |
| `Backend.SeedReplayNumbering` | backend/main.py:41-157 | from the seed, after k analyses the ids are exactly 1..4+k, pairwise distinct |
| `LoginForm.Classify` | frontend/src/Login.jsx:16-23 | the form signs in iff the reply is 2xx with status "success", with that reply's user, and alerts iff the request failed |
| `LoginForm.Next` | frontend/src/Login.jsx:13-25 | typing replaces the email or password and sends nothing; submitting sets `loading`, keeps both fields and posts the typed credentials; every reply clears `loading`, keeps the fields and produces the reply's classified outcome; only replies produce an outcome |
| `LoginForm.SignedInExactlyOnSuccess` | frontend/src/Login.jsx:18-19 | the callback fires iff the reply is 2xx with status "success", with exactly its `user` |
| `LoginForm.AlertedExactlyOnError` | frontend/src/Login.jsx:21-23 | an alert is raised iff the request failed: the response's `detail`, or "Backend server is not running!" without a response |
| `LoginForm.QuietExactlyOnOtherStatus` | frontend/src/Login.jsx:18-20 | a 2xx reply with another status neither calls back nor alerts |
| `LoginForm.Deliver` | frontend/src/Login.jsx:52 | a submit is possible only while the button is enabled, a reply only to an outstanding request; the delivered form is the handler's step and the outstanding count rises on submit and falls on reply |
| `LoginForm.DeliverKeepsBracketed` | frontend/src/Login.jsx:15-24 | each possible event keeps `loading` equal to "one request outstanding" |
| `LoginForm.StartBracketed` | frontend/src/Login.jsx:9-11 | the fresh form, with empty fields and `loading` false, has no request outstanding |
| `LoginForm.RunKeepsBracketed` | frontend/src/Login.jsx:11-52 | along every possible trace `loading` means one request outstanding, and never more than one is |
| `LoginForm.HandlerHasNoGuard` | frontend/src/Login.jsx:13-17 | the handler itself issues a second request when submitted while loading |
| `Dashboard.Handle` | frontend/src/App.jsx:25-59 | each handler sends or alerts at most once; only a history reply changes the history, only a file pick the file, only a tab pick the tab, only sign-in and logout the session, only starting or answering an audit the loading flag; an audit reply always ends loading |
| `Dashboard.ReloadFires` | frontend/src/App.jsx:44-46 | the history effect fires only when signed in and only when the tab or the sign-in state changed |
| `Dashboard.Dispatch` | frontend/src/App.jsx:25-59 | a full step has the handler's state and the handler's effects first, followed by exactly one history load when the effect's keys changed while signed in and nothing otherwise |
| `Dashboard.FileLabel` | frontend/src/App.jsx:111 | the label is "Select Manuscript" without a file, else a prefix of the name of at most 12 characters, the whole name iff it has at most 12 |
| `Dashboard.Render` | frontend/src/App.jsx:62-116 | only the login form is rendered while signed out; signed in, the dashboard shows the tab and the user, and the upload controls exactly on the manuscripts tab, with the file label and the button disabled by `loading` |
| `Dashboard.AuthGate` | frontend/src/App.jsx:62-65 | signed out, only the login form is rendered and signing in is the only user action offered |
| `Dashboard.AuditButtonDisabledWhileLoading` | frontend/src/App.jsx:108-116 | on the manuscripts tab the audit button is disabled exactly while loading, so starting an audit is offered iff not loading |
| `Dashboard.LoginSuccess` | frontend/src/App.jsx:25-46 | login success sets the user and authentication and nothing else, and the effect then loads the history once |
| `Dashboard.LogoutKeepsHistoryAndFile` | frontend/src/App.jsx:30-34 | logout clears authentication, user and current result, keeps history, file, loading flag and tab, and sends nothing |
| `Dashboard.SelectionsReplace` | frontend/src/App.jsx:79-112 | choosing a file replaces the selection (an empty pick clears it) and sends nothing; choosing a tab replaces the tab; nothing else changes |
| `Dashboard.HistoryReplyReplacesOrKeeps` | frontend/src/App.jsx:37-42 | a history reply replaces the cache wholesale; a failed one changes nothing and alerts nothing |
| `Dashboard.HistoryRequestedExactlyWhen` | frontend/src/App.jsx:44-57 | the history is loaded, at most once per event, exactly on sign-in, on switching to another tab while signed in, and on a successful audit |
| `Dashboard.ReviewWithoutFile` | frontend/src/App.jsx:49 | with no file the audit only alerts "Select PDF first!": no request, no state change |
| `Dashboard.ReviewIssued` | frontend/src/App.jsx:48-55 | with a file the audit sets loading, clears the current result and sends that file, whatever the loading flag was |
| `Dashboard.AnalyzeSucceeded` | frontend/src/App.jsx:55-59 | a successful reply becomes the current result, ends loading and sends exactly one history request |
| `Dashboard.AnalyzeFailed` | frontend/src/App.jsx:54-59 | a failed reply alerts "Backend Error!", ends loading and leaves the current result as it was |
| `Dashboard.FailedAuditLeavesNoResult` | frontend/src/App.jsx:48-59 | an audit that is issued and fails leaves no current result and the history as it was |
| `Dashboard.AuditSentExactlyOnReview` | frontend/src/App.jsx:48-55 | an audit request is sent exactly when an audit is started with a file selected, and only one |
| `Dashboard.Deliver` | frontend/src/App.jsx:62-116 | an event occurs iff it is a user event the screen offers or a reply to an outstanding request of its kind, and then the component takes the step the handlers and the effect define, each outstanding-request count rising by the requests sent and falling by one for a reply of its kind |
| `Dashboard.DeliverKeepsCoherent` | frontend/src/App.jsx:15-60 | each possible event keeps "loading iff one audit outstanding" and "user held iff authenticated" |
| `Dashboard.RunKeepsCoherent` | frontend/src/App.jsx:48-116 | along every possible trace at most one audit is outstanding, exactly while loading |
| `Dashboard.StartCoherent` | frontend/src/App.jsx:15-23 | the initial state is coherent |
| `Dashboard.ResultCanOutliveLogout` | frontend/src/App.jsx:30-59 | an audit started before logout and answered after it becomes the current result while signed out |
| `Integration.LoginAgainstBackend` | frontend/src/Login.jsx:16-23 | against the backend, the form signs in with the display name iff the credentials are valid, else alerts "Invalid Credentials", which differs from the unreachable-server alert |
| `Integration.SignInOpensDashboard` | frontend/src/App.jsx:25-46 | a reply that makes the form sign in is a 2xx "success" reply; it clears the form's `loading`, and the dashboard opens for exactly the user it names and loads the history |
| `Integration.AuditThenRefresh` | frontend/src/App.jsx:48-59 | after a successful audit and its refresh, the new result is current and heads the history, the old history follows, loading is over |
| `Integration.ExampleLogin` | backend/main.py:106-108 | "a@b.edu" with "secret123" signs in as "A" |
| `Integration.ExampleAudit` | backend/main.py:138-157 | "draft.pdf" with 3 flags on the seed gives id 5, score 9.5, "Approved" and the count in the methodology text |

## Left out

- PDF scanning and highlighting (`process_pdf_and_highlight`) and the AI review (`get_ai_peer_review`) are foreign library calls: the flag count and the report text are fields of `Backend.Upload`.
- The clock (`datetime.now()`) is an input date; the random `chart_data` is not part of `AuditRecord`.
- File writes, the upload directory, the static mount (beyond its `/files/` route), FastAPI routing, CORS, uvicorn, the `/` health check and environment variables: the base URL is a parameter.
- HTTP transport (axios) and the endpoint addresses: replies are event payloads.
- Real asynchrony: each reply is one event, and the state updates of one handler run form one step.
- JSX rendering, styles, icons, charts and tab titles: the history table and trend chart only read `history`; the model renders only the auth gate, the active tab, the signed-in user, the file label and the audit button's disabled state.
- Browser form validation (`required`, `type="email"`) in the login form: the model accepts any typed strings.
- The fallback to `"None"` when an upload has no filename: `Upload.filename` is always a string.
- `console.log` on a failed history load.
- Backend.ScoreTenths: does not model floating point; it assumes `round(…, 1)` yields exactly 9.8 minus one tenth per flag, floored at 1.0.
- Text.Capitalize: maps only ASCII letters, whereas Python's `capitalize` applies full Unicode case mapping (and title case to the first character).
- Dashboard.FileLabel: counts Unicode scalar values, whereas JavaScript's `substring` counts UTF-16 code units, so names with characters outside the Basic Multilingual Plane can be cut differently.

=== FILE: backend.dfy ===
/** The FastAPI service: the demo login rule, the construction of an analysis
    result from an uploaded manuscript, and the in-memory `audit_db` history.
    The PDF scan, the AI review and the clock are foreign calls; their outputs
    (mistake count, report text, date) arrive as fields of an `Upload`. */
module Backend {
  import opened Common
  import opened Text

  // ---------------------------------------------------------------- login

  const StatusSuccess := "success"
  const InvalidCredentials := "Invalid Credentials"
  const Unauthorized := 401
  const MinPasswordLength := 3

  /** Body of a successful `/login` reply: `{"status": ..., "user": ...}`. */
  datatype LoginReply = LoginReply(status: string, user: string)

  /** An `HTTPException`: status code and `detail` text. */
  datatype HttpException = HttpException(statusCode: int, detail: string)

  predicate ValidCredentials(email: string, password: string)
  {
    '@' in email && |password| >= MinPasswordLength
  }

  /** `email.split("@")[0].capitalize()` */
  function DisplayName(email: string): (name: string)
    ensures |name| == |FirstField(email, '@')|
    ensures |name| == 0 <==> |email| == 0 || email[0] == '@'
  {
    Capitalize(FirstField(email, '@'))
  }

  /** The `/login` endpoint. */
  function Login(email: string, password: string): (r: Result<LoginReply, HttpException>)
    ensures r.Success? <==> '@' in email && |password| >= 3
    ensures r.Success? ==> r.value.status == "success" && r.value.user == DisplayName(email)
    ensures r.Failure? ==> r.error.statusCode == 401 && r.error.detail == "Invalid Credentials"
  {
    if ValidCredentials(email, password) then Success(LoginReply(StatusSuccess, DisplayName(email)))
    else Failure(HttpException(Unauthorized, InvalidCredentials))
  }

  /** The display name is the local part of the email (the text before the first
      '@'), upper-cased at its first character and lower-cased after it. */
  lemma DisplayNameShape(email: string)
    ensures var local := FirstField(email, '@');
      && |DisplayName(email)| == |local|
      && (|local| > 0 ==> DisplayName(email)[0] == ToUpper(local[0]))
      && (forall i :: 0 < i < |local| ==> DisplayName(email)[i] == ToLower(local[i]))
      && '@' !in DisplayName(email)
  {
    var local := FirstField(email, '@');
    var name := DisplayName(email);
    assert '@' !in local;
    forall i | 0 <= i < |name| ensures name[i] != '@' {
      if i == 0 {
        assert name[0] == ToUpper(local[0]);
      } else {
        assert name[i] == LowerAll(local[1..])[i - 1] == ToLower(local[i]);
      }
    }
  }

  /** An email that starts with '@' is accepted and yields an empty name. */
  lemma EmptyNameAccepted(email: string, password: string)
    requires |email| > 0 && email[0] == '@' && |password| >= 3
    ensures Login(email, password) == Success(LoginReply("success", ""))
  {
  }

  /** The name does not depend on the case in which the local part was typed. */
  lemma DisplayNameIgnoresCase(e1: string, e2: string)
    requires LowerAll(FirstField(e1, '@')) == LowerAll(FirstField(e2, '@'))
    ensures DisplayName(e1) == DisplayName(e2)
  {
    CapitalizeIgnoresCase(FirstField(e1, '@'), FirstField(e2, '@'));
  }

  // --------------------------------------------------------- audit records

  const Approved := "Approved"
  const RevisionNeeded := "Revision Needed"
  const Rejected := "Rejected"
  const StatText := "Statistics verified against institutional p-value markers."
  const MethodPrefix := "Linguistic audit identified "
  const MethodSuffix := " methodology flag(s)."
  const InPrefix := "in_"
  const OutPrefix := "reviewed_"
  /** Where `app.mount` serves the upload directory. */
  const FilesRoute := "/files/"

  /** The fields only an analysis produces; the seed entries lack them. */
  datatype Details = Details(pdfUrl: string, aiReport: string, methodText: string, statText: string)

  /** One entry of `audit_db`; the score is kept in integer tenths (9.4 is 94). */
  datatype AuditRecord = AuditRecord(
    id: int,
    date: string,
    title: string,
    scoreTenths: int,
    mistakeCount: nat,
    status: string,
    details: Option<Details>)

  /** What one `/analyze` call receives: the upload's file name, and the outputs
      of the PDF scan (`m_count`), of the AI review and of the clock. */
  datatype Upload = Upload(filename: string, mistakeCount: nat, aiReport: string, date: string)

  /** The seed contents of `audit_db`. */
  const Seed: seq<AuditRecord> := [
    AuditRecord(1, "2026-01-01", "Quantum_Computing_Draft.pdf", 94, 1, Approved, None),
    AuditRecord(2, "2026-01-01", "Climate_Modelling_v4.pdf", 72, 8, RevisionNeeded, None),
    AuditRecord(3, "2026-01-02", "Neural_Net_Efficiency.pdf", 88, 3, Approved, None),
    AuditRecord(4, "2026-01-03", "Macro_Bio_Research.pdf", 65, 12, Rejected, None)
  ]

  /** `round(max(1, 9.8 - m_count * 0.1), 1)` in tenths. */
  function ScoreTenths(mistakeCount: nat): (score: int)
    ensures 10 <= score <= 98
    ensures mistakeCount <= 88 ==> score + mistakeCount == 98
    ensures mistakeCount >= 88 ==> score == 10
  {
    if 98 - mistakeCount < 10 then 10 else 98 - mistakeCount
  }

  /** More flagged markers never raise the score. */
  lemma ScoreNonIncreasing(m1: nat, m2: nat)
    requires m1 <= m2
    ensures ScoreTenths(m2) <= ScoreTenths(m1)
  {
  }

  function Status(mistakeCount: nat): (s: string)
    ensures s == Approved <==> mistakeCount < 5
    ensures s == RevisionNeeded <==> mistakeCount >= 5
  {
    if mistakeCount < 5 then Approved else RevisionNeeded
  }

  /** An approved analysis scores at least 9.4, one needing revision at most 9.3. */
  lemma StatusAgreesWithScore(m: nat)
    ensures Status(m) == Approved ==> ScoreTenths(m) >= 94
    ensures Status(m) == RevisionNeeded ==> ScoreTenths(m) <= 93
  {
  }

  function InName(filename: string): string { InPrefix + filename }

  function OutName(filename: string): string { OutPrefix + filename }

  function PdfUrl(baseUrl: string, filename: string): (url: string)
    ensures |url| == |baseUrl| + |FilesRoute| + |OutName(filename)|
    ensures url[..|baseUrl|] == baseUrl
    ensures url[|baseUrl|..|baseUrl| + |FilesRoute|] == FilesRoute
    ensures url[|baseUrl| + |FilesRoute|..] == OutName(filename)
  {
    baseUrl + FilesRoute + OutName(filename)
  }

  function MethodText(mistakeCount: nat): (t: string)
    ensures |t| == |MethodPrefix| + |NatToString(mistakeCount)| + |MethodSuffix|
    ensures t[..|MethodPrefix|] == MethodPrefix
    ensures t[|t| - |MethodSuffix|..] == MethodSuffix
  {
    MethodPrefix + NatToString(mistakeCount) + MethodSuffix
  }

  /** The saved upload never shares a name with any highlighted output. */
  lemma InputNeverOverwritesOutput(f: string, g: string)
    ensures InName(f) != OutName(g)
  {
    assert InName(f)[0] == 'i' && OutName(g)[0] == 'r';
  }

  /** Different uploads have different output files and different URLs, and
      the URL is the mount route followed by the output file's name. */
  lemma PdfUrlIdentifiesFile(baseUrl: string, f: string, g: string)
    ensures PdfUrl(baseUrl, f)[..|baseUrl| + |FilesRoute|] == baseUrl + FilesRoute
    ensures PdfUrl(baseUrl, f)[|baseUrl| + |FilesRoute|..] == OutName(f)
    ensures PdfUrl(baseUrl, f) == PdfUrl(baseUrl, g) ==> f == g
  {
    var n := |baseUrl| + |FilesRoute| + |OutPrefix|;
    assert PdfUrl(baseUrl, f)[n..] == f;
    assert PdfUrl(baseUrl, g)[n..] == g;
  }

  /** The methodology sentence carries the mistake count in decimal. */
  lemma MethodTextReportsCount(m: nat)
    ensures var t := MethodText(m);
      && |t| == |MethodPrefix| + |NatToString(m)| + |MethodSuffix|
      && t[..|MethodPrefix|] == MethodPrefix
      && t[|t| - |MethodSuffix|..] == MethodSuffix
      && (forall k :: |MethodPrefix| <= k < |t| - |MethodSuffix| ==> IsDigit(t[k]))
      && DigitsValue(t[|MethodPrefix|..|t| - |MethodSuffix|]) == m
  {
    var t := MethodText(m);
    var d := NatToString(m);
    assert t[|MethodPrefix|..|t| - |MethodSuffix|] == d;
    forall k | |MethodPrefix| <= k < |t| - |MethodSuffix| ensures IsDigit(t[k]) {
      assert t[k] == d[k - |MethodPrefix|];
    }
    NatToStringRoundTrip(m);
  }

  /** The result dictionary built by `/analyze` when `audit_db` has `n` entries. */
  function NewRecord(n: nat, u: Upload, baseUrl: string): (r: AuditRecord)
    ensures r.id == n + 1
    ensures r.title == u.filename && r.date == u.date && r.mistakeCount == u.mistakeCount
    ensures r.scoreTenths == ScoreTenths(u.mistakeCount) && r.status == Status(u.mistakeCount)
    ensures r.details == Some(Details(PdfUrl(baseUrl, u.filename), u.aiReport, MethodText(u.mistakeCount), StatText))
  {
    AuditRecord(
      n + 1,
      u.date,
      u.filename,
      ScoreTenths(u.mistakeCount),
      u.mistakeCount,
      Status(u.mistakeCount),
      Some(Details(PdfUrl(baseUrl, u.filename), u.aiReport, MethodText(u.mistakeCount), StatText)))
  }

  /** Everything one `/analyze` call produces: the two stored file names, the
      returned result and the new `audit_db`. */
  datatype Analysis = Analysis(inName: string, outName: string, result: AuditRecord, db: seq<AuditRecord>)

  /** The `/analyze` endpoint. */
  function Analyze(db: seq<AuditRecord>, u: Upload, baseUrl: string): (a: Analysis)
    ensures a.inName == "in_" + u.filename && a.outName == "reviewed_" + u.filename
    ensures a.result == NewRecord(|db|, u, baseUrl)
    ensures a.result.id == |db| + 1 && a.result.title == u.filename && a.result.date == u.date
    ensures a.result.details.Some? && a.result.details.value.pdfUrl == baseUrl + "/files/" + a.outName
    ensures |a.db| == |db| + 1
    ensures a.db[0] == a.result
    ensures a.db[1..] == db
  {
    var r := NewRecord(|db|, u, baseUrl);
    Analysis(InName(u.filename), OutName(u.filename), r, [r] + db)
  }

  /** The `/history` endpoint: `audit_db` as it stands. */
  function GetHistory(db: seq<AuditRecord>): (h: seq<AuditRecord>)
    ensures h == db
  {
    db
  }

  /** History lists the newest analysis first and the older ones after it, unchanged. */
  lemma HistoryNewestFirst(db: seq<AuditRecord>, u: Upload, baseUrl: string)
    ensures var a := Analyze(db, u, baseUrl);
      && GetHistory(a.db)[0] == a.result
      && GetHistory(a.db)[1..] == GetHistory(db)
      && (forall i :: 0 <= i < |db| ==> GetHistory(a.db)[i + 1] == GetHistory(db)[i])
  {
  }

  // ------------------------------------------------------------ id numbering

  function Ids(db: seq<AuditRecord>): set<int>
  {
    set i | 0 <= i < |db| :: db[i].id
  }

  function OneTo(n: nat): (r: set<int>)
    ensures forall k :: k in r <==> 1 <= k <= n
  {
    if n == 0 then {} else OneTo(n - 1) + {n}
  }

  /** The ids of `audit_db` are exactly 1..n and no two entries share one. */
  ghost predicate WellNumbered(db: seq<AuditRecord>)
  {
    && Ids(db) == OneTo(|db|)
    && forall i, j :: 0 <= i < j < |db| ==> db[i].id != db[j].id
  }

  lemma SeedWellNumbered()
    ensures WellNumbered(Seed)
  {
    assert Ids(Seed) == {1, 2, 3, 4} by {
      assert Seed[0].id == 1 && Seed[1].id == 2 && Seed[2].id == 3 && Seed[3].id == 4;
    }
    assert OneTo(4) == {1, 2, 3, 4};
  }

  /** The seed entries carry no report fields and include a "Rejected" status,
      which no analysis ever assigns; every analysis carries its report fields. */
  lemma SeedDiffersFromAnalyses(db: seq<AuditRecord>, u: Upload, baseUrl: string)
    ensures forall i :: 0 <= i < |Seed| ==> Seed[i].details.None?
    ensures Seed[3].status == "Rejected"
    ensures Analyze(db, u, baseUrl).result.status != "Rejected"
    ensures Analyze(db, u, baseUrl).result.details.Some?
  {
  }

  /** Each analysis keeps the numbering intact. */
  lemma AnalyzeKeepsNumbering(db: seq<AuditRecord>, u: Upload, baseUrl: string)
    requires WellNumbered(db)
    ensures WellNumbered(Analyze(db, u, baseUrl).db)
  {
    var a := Analyze(db, u, baseUrl);
    var n := |db|;
    assert Ids(a.db) == {n + 1} + Ids(db) by {
      forall x | x in Ids(a.db) ensures x in {n + 1} + Ids(db) {
        var i :| 0 <= i < |a.db| && a.db[i].id == x;
        if i > 0 { assert a.db[i] == db[i - 1]; }
      }
      forall x | x in Ids(db) ensures x in Ids(a.db) {
        var i :| 0 <= i < n && db[i].id == x;
        assert a.db[i + 1] == db[i];
      }
    }
    assert OneTo(n + 1) == {n + 1} + OneTo(n);
    forall i, j | 0 <= i < j < |a.db| ensures a.db[i].id != a.db[j].id {
      if i == 0 {
        assert a.db[j] == db[j - 1];
        assert db[j - 1].id in Ids(db);
      } else {
        assert a.db[i] == db[i - 1] && a.db[j] == db[j - 1];
      }
    }
  }

  /** `audit_db` after the given uploads have been analysed, oldest upload first. */
  function Replay(db: seq<AuditRecord>, uploads: seq<Upload>, baseUrl: string): (r: seq<AuditRecord>)
    ensures |r| == |db| + |uploads|
    decreases |uploads|
  {
    if |uploads| == 0 then db
    else Replay(Analyze(db, uploads[0], baseUrl).db, uploads[1..], baseUrl)
  }

  /** Any sequence of analyses keeps a well-numbered history well numbered. */
  lemma {:induction false} ReplayKeepsNumbering(db: seq<AuditRecord>, uploads: seq<Upload>, baseUrl: string)
    requires WellNumbered(db)
    ensures WellNumbered(Replay(db, uploads, baseUrl))
    decreases |uploads|
  {
    if |uploads| > 0 {
      AnalyzeKeepsNumbering(db, uploads[0], baseUrl);
      ReplayKeepsNumbering(Analyze(db, uploads[0], baseUrl).db, uploads[1..], baseUrl);
    }
  }

  lemma SeedReplayNumbering(uploads: seq<Upload>, baseUrl: string)
    ensures var db := Replay(Seed, uploads, baseUrl);
      Ids(db) == OneTo(|Seed| + |uploads|) && forall i, j :: 0 <= i < j < |db| ==> db[i].id != db[j].id
  {
    SeedWellNumbered();
    ReplayKeepsNumbering(Seed, uploads, baseUrl);
  }
}

=== FILE: common.dfy ===
/** Failure-compatible wrappers shared by the backend and the two front-end
    components: an optional value (JavaScript's `null`/`undefined`, Python's
    missing dictionary key) and a result that is either a value or an error. */
module Common {

  datatype Option<+T> = None | Some(value: T)

  datatype Result<+T, +E> = Success(value: T) | Failure(error: E)

  /** How an HTTP request ended as the browser client sees it: a 2xx payload,
      an error carrying a response (its `detail`), or an error with no response. */
  datatype Reply<+T> = Ok(payload: T) | HttpError(detail: string) | NoResponse

  function Min(a: int, b: int): int
  {
    if a <= b then a else b
  }
}

=== FILE: dashboard.dfy ===
/** The dashboard component: session state, the single manuscript submission,
    the history cache and the tab selection, as a transition system. Each
    asynchronous handler is split into discrete events (the click that issues a
    request, the reply that answers it); each step yields the new state and the
    effects it causes (requests sent, alerts raised). */
module Dashboard {
  import opened Common
  import Backend

  const SelectFirst := "Select PDF first!"
  const BackendError := "Backend Error!"
  const NoFileLabel := "Select Manuscript"
  const LabelWidth := 12

  datatype Tab = Manuscripts | AuditHistory | GlobalMetrics | EthicsBoard

  /** A file picked in the browser: its name and an opaque handle to its bytes. */
  datatype PickedFile = PickedFile(name: string, handle: nat)

  type Record = Backend.AuditRecord

  datatype State = State(
    isAuthenticated: bool,
    user: Option<string>,
    activeTab: Tab,
    file: Option<PickedFile>,
    data: Option<Record>,
    loading: bool,
    history: seq<Record>)

  const Initial := State(false, None, Manuscripts, None, None, false, [])

  datatype Request = AnalyzeRequest(file: PickedFile) | HistoryRequest

  datatype Effect = Send(request: Request) | Alert(message: string)

  datatype Event =
    | LoginSucceeded(userName: string)
    | LoggedOut
    | FileChosen(choice: Option<PickedFile>)
    | TabChosen(tab: Tab)
    | ReviewStarted
    | AnalyzeReplied(analysis: Reply<Record>)
    | HistoryReplied(entries: Reply<seq<Record>>)

  datatype Step = Step(state: State, effects: seq<Effect>)

  /** The event handlers themselves, before React runs the history effect. */
  function Handle(s: State, e: Event): (r: Step)
    ensures |r.effects| <= 1
    ensures !e.HistoryReplied? ==> r.state.history == s.history
    ensures !e.FileChosen? ==> r.state.file == s.file
    ensures !e.TabChosen? ==> r.state.activeTab == s.activeTab
    ensures r.state.isAuthenticated != s.isAuthenticated || r.state.user != s.user ==>
      e.LoginSucceeded? || e.LoggedOut?
    ensures r.state.loading != s.loading ==> e.ReviewStarted? || e.AnalyzeReplied?
    ensures r.state.data != s.data ==> e.LoggedOut? || e.ReviewStarted? || e.AnalyzeReplied?
    ensures e.AnalyzeReplied? ==> !r.state.loading
  {
    match e
    case LoginSucceeded(name) => Step(s.(user := Some(name), isAuthenticated := true), [])
    case LoggedOut => Step(s.(isAuthenticated := false, user := None, data := None), [])
    case FileChosen(choice) => Step(s.(file := choice), [])
    case TabChosen(t) => Step(s.(activeTab := t), [])
    case ReviewStarted =>
      (match s.file
       case None => Step(s, [Alert(SelectFirst)])
       case Some(f) => Step(s.(loading := true, data := None), [Send(AnalyzeRequest(f))]))
    case AnalyzeReplied(r) =>
      (match r
       case Ok(p) => Step(s.(data := Some(p), loading := false), [Send(HistoryRequest)])
       case _ => Step(s.(loading := false), [Alert(BackendError)]))
    case HistoryReplied(r) =>
      (match r
       case Ok(h) => Step(s.(history := h), [])
       case _ => Step(s, []))
  }

  /** The effect keyed on `[activeTab, isAuthenticated]` loads the history when
      a key changed and the user is authenticated. */
  predicate ReloadFires(before: State, after: State)
    ensures ReloadFires(before, after) ==> after.isAuthenticated
    ensures before.activeTab == after.activeTab && before.isAuthenticated == after.isAuthenticated ==>
      !ReloadFires(before, after)
  {
    after.isAuthenticated
    && (before.activeTab != after.activeTab || before.isAuthenticated != after.isAuthenticated)
  }

  /** A full step: the handler, then the history effect if its keys changed. */
  function Dispatch(s: State, e: Event): (r: Step)
    ensures r.state == Handle(s, e).state
    ensures |Handle(s, e).effects| <= |r.effects| <= |Handle(s, e).effects| + 1
    ensures r.effects[..|Handle(s, e).effects|] == Handle(s, e).effects
    ensures |r.effects| == |Handle(s, e).effects| + (if ReloadFires(s, r.state) then 1 else 0)
    ensures ReloadFires(s, r.state) ==> r.effects[|Handle(s, e).effects|] == Send(HistoryRequest)
  {
    var h := Handle(s, e);
    Step(h.state, h.effects + if ReloadFires(s, h.state) then [Send(HistoryRequest)] else [])
  }

  function CountAnalyze(effects: seq<Effect>): (n: nat)
    ensures n <= |effects|
  {
    if |effects| == 0 then 0
    else (if effects[0].Send? && effects[0].request.AnalyzeRequest? then 1 else 0) + CountAnalyze(effects[1..])
  }

  function CountHistory(effects: seq<Effect>): (n: nat)
    ensures n <= |effects|
    ensures n > 0 <==> Send(HistoryRequest) in effects
  {
    if |effects| == 0 then 0
    else (if effects[0] == Send(HistoryRequest) then 1 else 0) + CountHistory(effects[1..])
  }

  // ------------------------------------------------------------- rendering

  /** The upload label: the first twelve characters of the file name, or a prompt. */
  function FileLabel(file: Option<PickedFile>): (shown: string)
    ensures file.None? ==> shown == "Select Manuscript"
    ensures file.Some? ==> shown <= file.value.name && |shown| <= 12
    ensures file.Some? ==> (shown == file.value.name <==> |file.value.name| <= 12)
    ensures file.Some? && |file.value.name| >= 12 ==> |shown| == 12
  {
    match file
    case None => NoFileLabel
    case Some(f) => f.name[..Min(LabelWidth, |f.name|)]
  }

  datatype UploadControls = UploadControls(fileLabel: string, auditDisabled: bool)

  /** What the component renders: only the login form until authenticated;
      the upload controls only on the manuscripts tab. */
  datatype Screen =
    | LoginScreen
    | DashboardScreen(tab: Tab, user: Option<string>, upload: Option<UploadControls>)

  function Render(s: State): (r: Screen)
    ensures r.LoginScreen? <==> !s.isAuthenticated
    ensures r.DashboardScreen? ==> r.tab == s.activeTab && r.user == s.user
    ensures r.DashboardScreen? ==> (r.upload.Some? <==> s.activeTab == Manuscripts)
    ensures r.DashboardScreen? && r.upload.Some? ==>
      r.upload.value == UploadControls(FileLabel(s.file), s.loading)
  {
    if !s.isAuthenticated then LoginScreen
    else DashboardScreen(
      s.activeTab,
      s.user,
      if s.activeTab == Manuscripts then Some(UploadControls(FileLabel(s.file), s.loading)) else None)
  }

  predicate IsReply(e: Event)
  {
    e.AnalyzeReplied? || e.HistoryReplied?
  }

  /** The user events the rendered screen offers; replies are not user events. */
  predicate Offered(s: State, e: Event)
  {
    var screen := Render(s);
    match e
    case LoginSucceeded(_) => screen.LoginScreen?
    case LoggedOut => screen.DashboardScreen?
    case TabChosen(_) => screen.DashboardScreen?
    case FileChosen(_) => screen.DashboardScreen? && screen.upload.Some?
    case ReviewStarted => screen.DashboardScreen? && screen.upload.Some? && !screen.upload.value.auditDisabled
    case _ => true
  }

  /** Signed out, only the login form is rendered and signing in is the only user action. */
  lemma AuthGate(s: State, e: Event)
    requires !s.isAuthenticated
    ensures Render(s) == LoginScreen
    ensures !IsReply(e) ==> (Offered(s, e) <==> e.LoginSucceeded?)
  {
  }

  /** The audit button is rendered disabled exactly while an audit is loading. */
  lemma AuditButtonDisabledWhileLoading(s: State)
    requires s.isAuthenticated && s.activeTab == Manuscripts
    ensures Render(s).upload.Some?
    ensures Render(s).upload.value.auditDisabled == s.loading
    ensures Offered(s, ReviewStarted) <==> !s.loading
  {
  }

  // ---------------------------------------------------------- transitions

  /** Login success records the name and authenticates, changes nothing else,
      and the history effect then loads the history once. */
  lemma LoginSuccess(s: State, name: string)
    requires !s.isAuthenticated
    ensures Dispatch(s, LoginSucceeded(name)).state == s.(user := Some(name), isAuthenticated := true)
    ensures Dispatch(s, LoginSucceeded(name)).effects == [Send(HistoryRequest)]
  {
  }

  /** Logout drops the session and the current result but keeps the history,
      the selected file, the loading flag and the tab. */
  lemma LogoutKeepsHistoryAndFile(s: State)
    ensures var t := Dispatch(s, LoggedOut).state;
      && !t.isAuthenticated && t.user.None? && t.data.None?
      && t.history == s.history && t.file == s.file
      && t.loading == s.loading && t.activeTab == s.activeTab
    ensures Dispatch(s, LoggedOut).effects == []
  {
  }

  /** Picking a file replaces the selection (a cancelled pick clears it) and
      picking a tab replaces the tab; nothing else changes. */
  lemma SelectionsReplace(s: State, choice: Option<PickedFile>, t: Tab)
    ensures Dispatch(s, FileChosen(choice)) == Step(s.(file := choice), [])
    ensures Dispatch(s, TabChosen(t)).state == s.(activeTab := t)
  {
  }

  /** A history reply replaces the cache wholesale; a failed one changes
      nothing and raises no alert. */
  lemma HistoryReplyReplacesOrKeeps(s: State, r: Reply<seq<Record>>)
    ensures r.Ok? ==> Dispatch(s, HistoryReplied(r)).state == s.(history := r.payload)
    ensures !r.Ok? ==> Dispatch(s, HistoryReplied(r)).state == s
    ensures Dispatch(s, HistoryReplied(r)).effects == []
  {
  }

  /** Exactly three events load the history: signing in, switching to another
      tab while signed in, and a successful audit; each loads it once. */
  lemma HistoryRequestedExactlyWhen(s: State, e: Event)
    ensures CountHistory(Dispatch(s, e).effects) <= 1
    ensures Send(HistoryRequest) in Dispatch(s, e).effects <==>
      || (e.LoginSucceeded? && !s.isAuthenticated)
      || (e.TabChosen? && s.isAuthenticated && e.tab != s.activeTab)
      || (e.AnalyzeReplied? && e.analysis.Ok?)
  {
    var h := Handle(s, e);
    var extra: seq<Effect> := if ReloadFires(s, h.state) then [Send(HistoryRequest)] else [];
    assert Dispatch(s, e).effects == h.effects + extra;
    assert CountHistory(h.effects + extra) == CountHistory(h.effects) + CountHistory(extra) by {
      if |h.effects| == 1 {
        assert (h.effects + extra)[1..] == extra;
      }
    }
  }

  /** With no file selected the audit only alerts: no request, no state change. */
  lemma ReviewWithoutFile(s: State)
    requires s.file.None?
    ensures Dispatch(s, ReviewStarted) == Step(s, [Alert("Select PDF first!")])
  {
  }

  /** With a file, the audit sets `loading`, clears the current result and sends
      the file; it does so whether or not an audit is already loading. */
  lemma ReviewIssued(s: State, f: PickedFile)
    requires s.file == Some(f)
    ensures Dispatch(s, ReviewStarted).state == s.(loading := true, data := None)
    ensures Dispatch(s, ReviewStarted).effects == [Send(AnalyzeRequest(f))]
  {
  }

  /** A successful audit becomes the current result before the one history load
      it triggers is sent; `loading` ends false. */
  lemma AnalyzeSucceeded(s: State, p: Record)
    ensures Dispatch(s, AnalyzeReplied(Ok(p))).state == s.(data := Some(p), loading := false)
    ensures Dispatch(s, AnalyzeReplied(Ok(p))).effects == [Send(HistoryRequest)]
  {
  }

  /** A failed audit alerts and ends `loading`; it leaves the current result as
      it was, which after the request was issued is no result at all. */
  lemma AnalyzeFailed(s: State, r: Reply<Record>)
    requires !r.Ok?
    ensures Dispatch(s, AnalyzeReplied(r)).state == s.(loading := false)
    ensures Dispatch(s, AnalyzeReplied(r)).effects == [Alert("Backend Error!")]
  {
  }

  /** Issuing an audit and having it fail leaves no current result. */
  lemma FailedAuditLeavesNoResult(s: State, r: Reply<Record>)
    requires s.file.Some? && !r.Ok?
    ensures var t := Dispatch(Dispatch(s, ReviewStarted).state, AnalyzeReplied(r)).state;
      t.data.None? && !t.loading && t.history == s.history
  {
  }

  // ------------------------------------------------------ reachable worlds

  /** The component together with the number of unanswered requests of each kind. */
  datatype World = World(app: State, analyzeInFlight: nat, historyInFlight: nat)

  const Start := World(Initial, 0, 0)

  /** An event as it can actually occur: a user event only when the screen
      offers it, a reply only to an outstanding request. */
  function Deliver(w: World, e: Event): (r: Option<World>)
    ensures r.Some? ==> Offered(w.app, e)
    ensures r.Some? && e.AnalyzeReplied? ==> w.analyzeInFlight > 0
    ensures r.Some? && e.HistoryReplied? ==> w.historyInFlight > 0
    ensures Offered(w.app, e) && (e.AnalyzeReplied? ==> w.analyzeInFlight > 0)
      && (e.HistoryReplied? ==> w.historyInFlight > 0)
      ==> r.Some? && r.value.app == Dispatch(w.app, e).state
    ensures r.Some? ==> r.value.app == Dispatch(w.app, e).state
    ensures r.Some? ==>
      r.value.analyzeInFlight == w.analyzeInFlight + CountAnalyze(Dispatch(w.app, e).effects) - (if e.AnalyzeReplied? then 1 else 0)
    ensures r.Some? ==>
      r.value.historyInFlight == w.historyInFlight + CountHistory(Dispatch(w.app, e).effects) - (if e.HistoryReplied? then 1 else 0)
  {
    if !Offered(w.app, e) then None
    else if e.AnalyzeReplied? && w.analyzeInFlight == 0 then None
    else if e.HistoryReplied? && w.historyInFlight == 0 then None
    else
      var step := Dispatch(w.app, e);
      var a := w.analyzeInFlight + CountAnalyze(step.effects) - (if e.AnalyzeReplied? then 1 else 0);
      var h := w.historyInFlight + CountHistory(step.effects) - (if e.HistoryReplied? then 1 else 0);
      Some(World(step.state, a, h))
  }

  function Run(w: World, trace: seq<Event>): Option<World>
    decreases |trace|
  {
    if |trace| == 0 then Some(w)
    else match Deliver(w, trace[0])
      case None => None
      case Some(w') => Run(w', trace[1..])
  }

  /** `loading` is true exactly while one audit is outstanding, and a user name
      is held exactly while authenticated. */
  ghost predicate Coherent(w: World)
  {
    && w.analyzeInFlight == (if w.app.loading then 1 else 0)
    && (w.app.isAuthenticated <==> w.app.user.Some?)
  }

  /** Only starting a review with a file selected sends an audit, and it sends one. */
  lemma AuditSentExactlyOnReview(s: State, e: Event)
    ensures CountAnalyze(Dispatch(s, e).effects) == if e.ReviewStarted? && s.file.Some? then 1 else 0
  {
    var h := Handle(s, e);
    var extra: seq<Effect> := if ReloadFires(s, h.state) then [Send(HistoryRequest)] else [];
    assert CountAnalyze(extra) == 0;
    if |h.effects| == 1 {
      assert (h.effects + extra)[1..] == extra;
    } else {
      assert h.effects + extra == extra;
    }
  }

  lemma DeliverKeepsCoherent(w: World, e: Event)
    requires Coherent(w)
    ensures Deliver(w, e).Some? ==> Coherent(Deliver(w, e).value)
  {
    AuditSentExactlyOnReview(w.app, e);
  }

  /** In every reachable world at most one audit is outstanding, and it is
      outstanding exactly while `loading` is set. */
  lemma {:induction false} RunKeepsCoherent(w: World, trace: seq<Event>)
    requires Coherent(w)
    ensures Run(w, trace).Some? ==> Coherent(Run(w, trace).value) && Run(w, trace).value.analyzeInFlight <= 1
    decreases |trace|
  {
    if |trace| > 0 {
      DeliverKeepsCoherent(w, trace[0]);
      if Deliver(w, trace[0]).Some? {
        RunKeepsCoherent(Deliver(w, trace[0]).value, trace[1..]);
      }
    }
  }

  lemma StartCoherent()
    ensures Coherent(Start)
  {
  }

  /** An audit reply that lands after logout still becomes the current result:
      the handler does not look at the session. */
  lemma ResultCanOutliveLogout(s: State, f: PickedFile, p: Record)
    requires s.isAuthenticated && s.user.Some? && s.activeTab == Manuscripts
    requires s.file == Some(f) && !s.loading
    ensures var r := Run(World(s, 0, 0), [ReviewStarted, LoggedOut, AnalyzeReplied(Ok(p))]);
      r.Some? && !r.value.app.isAuthenticated && r.value.app.data == Some(p)
  {
    var w1 := World(s.(loading := true, data := None), 1, 0);
    assert Deliver(World(s, 0, 0), ReviewStarted) == Some(w1);
    var w2 := World(w1.app.(isAuthenticated := false, user := None, data := None), 1, 0);
    assert Deliver(w1, LoggedOut) == Some(w2);
    var w3 := World(w2.app.(data := Some(p), loading := false), 0, 1);
    assert Deliver(w2, AnalyzeReplied(Ok(p))) == Some(w3);
    var t: seq<Event> := [ReviewStarted, LoggedOut, AnalyzeReplied(Ok(p))];
    assert t[1..] == [LoggedOut, AnalyzeReplied(Ok(p))] && t[1..][1..] == [AnalyzeReplied(Ok(p))];
    assert Run(w2, t[1..][1..]) == Run(w3, []) == Some(w3);
    assert Run(w1, t[1..]) == Some(w3);
  }
}

=== FILE: integration.dfy ===
/** How the three pieces fit together: the backend's replies as the two
    front-end components receive them. */
module Integration {
  import opened Common
  import Backend
  import LoginForm
  import Dashboard
  import Text

  /** A `/login` result as the login form sees it: the JSON body of a 2xx reply,
      or the `detail` of an error response. */
  function LoginWire(r: Result<Backend.LoginReply, Backend.HttpException>): Reply<LoginForm.Body>
  {
    match r
    case Success(v) => Ok(LoginForm.Body(v.status, v.user))
    case Failure(e) => HttpError(e.detail)
  }

  /** The upload the backend receives for a picked file: the multipart filename
      is the file's name. */
  function UploadOf(f: Dashboard.PickedFile, mistakeCount: nat, aiReport: string, date: string): Backend.Upload
  {
    Backend.Upload(f.name, mistakeCount, aiReport, date)
  }

  /** Against this backend, the form signs in with the display name exactly for
      valid credentials and otherwise alerts "Invalid Credentials", a message
      distinct from the one for an unreachable server. */
  lemma LoginAgainstBackend(email: string, password: string)
    ensures Backend.ValidCredentials(email, password) ==>
      LoginForm.Classify(LoginWire(Backend.Login(email, password))) == LoginForm.SignedIn(Backend.DisplayName(email))
    ensures !Backend.ValidCredentials(email, password) ==>
      LoginForm.Classify(LoginWire(Backend.Login(email, password))) == LoginForm.Alerted("Invalid Credentials")
    ensures LoginForm.Classify(NoResponse) != LoginForm.Classify(LoginWire(Backend.Login(email, password)))
  {
  }

  /** A reply that makes the form sign in opens the dashboard for exactly the
      user the reply names, and the dashboard then loads the history. */
  lemma SignInOpensDashboard(s: Dashboard.State, f: LoginForm.Form, r: Reply<LoginForm.Body>)
    requires !s.isAuthenticated
    requires LoginForm.Next(f, LoginForm.Replied(r)).outcome.SignedIn?
    ensures var u := LoginForm.Next(f, LoginForm.Replied(r)).outcome.user;
      var step := Dashboard.Dispatch(s, Dashboard.LoginSucceeded(u));
      && r.Ok? && u == r.payload.user
      && !LoginForm.Next(f, LoginForm.Replied(r)).form.loading
      && step.state.isAuthenticated && step.state.user == Some(u)
      && Dashboard.Render(step.state).DashboardScreen?
      && step.effects == [Dashboard.Send(Dashboard.HistoryRequest)]
  {
    var u := LoginForm.Next(f, LoginForm.Replied(r)).outcome.user;
    LoginForm.SignedInExactlyOnSuccess(r, u);
  }

  /** A successful audit followed by the history load it triggers leaves the
      new result current and at the head of the history, the previous history
      after it, and the audit no longer loading. */
  lemma AuditThenRefresh(
    s: Dashboard.State, f: Dashboard.PickedFile, db: seq<Backend.AuditRecord>,
    m: nat, report: string, date: string, baseUrl: string)
    requires s.file == Some(f)
    ensures
      var a := Backend.Analyze(db, UploadOf(f, m, report, date), baseUrl);
      var s1 := Dashboard.Dispatch(s, Dashboard.ReviewStarted).state;
      var s2 := Dashboard.Dispatch(s1, Dashboard.AnalyzeReplied(Ok(a.result))).state;
      var s3 := Dashboard.Dispatch(s2, Dashboard.HistoryReplied(Ok(Backend.GetHistory(a.db)))).state;
      && s3.data == Some(a.result)
      && s3.data.value.title == f.name
      && s3.data.value.id == |db| + 1
      && |s3.history| == |db| + 1
      && s3.history[0] == s3.data.value
      && s3.history[1..] == db
      && !s3.loading
  {
  }

  /** A sample sign-in: "a@b.edu" becomes the user "A". */
  lemma ExampleLogin()
    ensures Backend.Login("a@b.edu", "secret123") == Success(Backend.LoginReply("success", "A"))
  {
    var e := "a@b.edu";
    assert e[0] == 'a' && e[1] == '@';
    assert '@' in e;
    assert Text.FirstField(e, '@') == "a" by {
      Text.FirstFieldUnique(e, '@', "a");
    }
    assert Text.Capitalize("a") == "A" by {
      assert Text.ToUpper('a') == 'A';
      assert Text.LowerAll("") == "";
    }
    assert Backend.DisplayName(e) == "A";
  }

  /** A sample audit: "draft.pdf" with three flagged markers on the seed history gives
      entry 5, score 9.5, "Approved", and the count in its methodology text. */
  lemma ExampleAudit()
    ensures var a := Backend.Analyze(Backend.Seed, Backend.Upload("draft.pdf", 3, "report", "2026-01-04"), "http://localhost:8000");
      && a.result.id == 5
      && a.result.scoreTenths == 95
      && a.result.status == "Approved"
      && a.result.details.value.methodText == "Linguistic audit identified 3 methodology flag(s)."
      && a.db[1..] == Backend.Seed
  {
    assert Text.NatToString(3) == "3";
    assert Backend.MethodText(3) == "Linguistic audit identified 3 methodology flag(s).";
  }
}

=== FILE: login_form.dfy ===
/** The login form component: two text fields, a `loading` flag that brackets
    the `/login` request, and the classification of the reply into a call of
    `onLoginSuccess`, an alert, or nothing. The request is a discrete pair of
    events: the form is submitted, later a reply arrives. */
module LoginForm {
  import opened Common

  const ServerDown := "Backend server is not running!"
  const StatusSuccess := "success"

  datatype Form = Form(email: string, password: string, loading: bool)

  const Initial := Form("", "", false)

  /** The JSON body of a 2xx reply. */
  datatype Body = Body(status: string, user: string)

  /** The credentials posted to `/login`. */
  datatype Credentials = Credentials(email: string, password: string)

  /** What the reply makes the component do. */
  datatype Outcome = SignedIn(user: string) | Alerted(message: string) | Quiet

  datatype Event =
    | EmailTyped(email: string)
    | PasswordTyped(password: string)
    | Submitted
    | Replied(reply: Reply<Body>)

  /** The new form, the request it issues (if any) and what it reports. */
  datatype Step = Step(form: Form, request: Option<Credentials>, outcome: Outcome)

  /** The try/catch of `handleLogin`. */
  function Classify(r: Reply<Body>): (o: Outcome)
    ensures o.SignedIn? <==> r.Ok? && r.payload.status == "success"
    ensures o.SignedIn? ==> o.user == r.payload.user
    ensures o.Alerted? <==> !r.Ok?
  {
    match r
    case Ok(body) => if body.status == StatusSuccess then SignedIn(body.user) else Quiet
    case HttpError(detail) => Alerted(detail)
    case NoResponse => Alerted(ServerDown)
  }

  /** One event handled by the component. */
  function Next(f: Form, e: Event): (s: Step)
    ensures e.Submitted? ==> s.form == f.(loading := true) && s.request == Some(Credentials(f.email, f.password))
    ensures e.Replied? ==> !s.form.loading && s.request.None?
    ensures e.Replied? ==> s.form.email == f.email && s.form.password == f.password
    ensures e.Replied? ==> s.outcome == Classify(e.reply)
    ensures !e.Replied? ==> s.outcome == Quiet
    ensures e.EmailTyped? ==> s.form == f.(email := e.email) && s.request.None?
    ensures e.PasswordTyped? ==> s.form == f.(password := e.password) && s.request.None?
  {
    match e
    case EmailTyped(v) => Step(f.(email := v), None, Quiet)
    case PasswordTyped(v) => Step(f.(password := v), None, Quiet)
    case Submitted => Step(f.(loading := true), Some(Credentials(f.email, f.password)), Quiet)
    case Replied(r) => Step(f.(loading := false), None, Classify(r))
  }

  /** The submit button is rendered disabled while a request is outstanding. */
  predicate SubmitEnabled(f: Form)
  {
    !f.loading
  }

  /** The callback fires exactly for a "success" status, with exactly the returned user. */
  lemma SignedInExactlyOnSuccess(r: Reply<Body>, u: string)
    ensures Classify(r) == SignedIn(u) <==> r.Ok? && r.payload.status == "success" && r.payload.user == u
  {
  }

  /** An alert is raised exactly for an error: the reply's detail when there is
      a response, the fixed message when there is none. */
  lemma AlertedExactlyOnError(r: Reply<Body>, m: string)
    ensures Classify(r) == Alerted(m) <==>
      (r.HttpError? && m == r.detail) || (r.NoResponse? && m == "Backend server is not running!")
  {
  }

  /** A 2xx reply whose status is not "success" does nothing visible. */
  lemma QuietExactlyOnOtherStatus(r: Reply<Body>)
    ensures Classify(r) == Quiet <==> r.Ok? && r.payload.status != "success"
  {
  }

  /** The form together with the number of `/login` requests not yet answered. */
  datatype Client = Client(form: Form, inFlight: nat)

  /** An event as the browser can deliver it: a click only on an enabled button,
      a reply only to an outstanding request. `None` when it cannot happen. */
  function Deliver(c: Client, e: Event): (r: Option<Client>)
    ensures r.Some? <==> (e.Submitted? ==> SubmitEnabled(c.form)) && (e.Replied? ==> c.inFlight > 0)
    ensures r.Some? ==> r.value.form == Next(c.form, e).form
    ensures r.Some? ==> r.value.inFlight == c.inFlight + (if e.Submitted? then 1 else 0) - (if e.Replied? then 1 else 0)
  {
    if e.Submitted? && !SubmitEnabled(c.form) then None
    else if e.Replied? && c.inFlight == 0 then None
    else
      var s := Next(c.form, e);
      var n := if e.Submitted? then c.inFlight + 1 else if e.Replied? then c.inFlight - 1 else c.inFlight;
      Some(Client(s.form, n))
  }

  function Run(c: Client, trace: seq<Event>): Option<Client>
    decreases |trace|
  {
    if |trace| == 0 then Some(c)
    else match Deliver(c, trace[0])
      case None => None
      case Some(c') => Run(c', trace[1..])
  }

  /** `loading` is true exactly while one request is outstanding. */
  ghost predicate Bracketed(c: Client)
  {
    c.inFlight == if c.form.loading then 1 else 0
  }

  lemma DeliverKeepsBracketed(c: Client, e: Event)
    requires Bracketed(c)
    ensures Deliver(c, e).Some? ==> Bracketed(Deliver(c, e).value)
  {
  }

  /** A fresh form, with nothing sent yet, starts bracketed. */
  lemma StartBracketed()
    ensures Bracketed(Client(Initial, 0))
  {
  }

  /** From a bracketed client, every deliverable trace keeps `loading` equal to
      "one request outstanding", so no second request is ever issued. */
  lemma {:induction false} RunKeepsBracketed(c: Client, trace: seq<Event>)
    requires Bracketed(c)
    ensures Run(c, trace).Some? ==> Bracketed(Run(c, trace).value) && Run(c, trace).value.inFlight <= 1
    decreases |trace|
  {
    if |trace| > 0 {
      DeliverKeepsBracketed(c, trace[0]);
      if Deliver(c, trace[0]).Some? {
        RunKeepsBracketed(Deliver(c, trace[0]).value, trace[1..]);
      }
    }
  }

  /** `handleLogin` itself does not look at `loading`: only the disabled button
      stands between a second submit and a second request. */
  lemma HandlerHasNoGuard(f: Form)
    ensures Next(Next(f, Submitted).form, Submitted).request.Some?
  {
  }
}

=== FILE: text.dfy ===
/** String operations the backend relies on: ASCII case mapping and
    `str.capitalize`, `str.split` on a single character, and the decimal
    rendering of a natural number used inside f-strings. */
module Text {

  predicate IsAsciiUpper(c: char) { 'A' <= c <= 'Z' }

  predicate IsAsciiLower(c: char) { 'a' <= c <= 'z' }

  predicate IsDigit(c: char) { '0' <= c <= '9' }

  /** Upper-case mapping of one character (ASCII letters only). */
  function ToUpper(c: char): (u: char)
    ensures !IsAsciiLower(u)
    ensures IsAsciiLower(c) ==> IsAsciiUpper(u)
    ensures !IsAsciiLower(c) ==> u == c
  {
    if IsAsciiLower(c) then (c as int - 32) as char else c
  }

  /** Lower-case mapping of one character (ASCII letters only). */
  function ToLower(c: char): (l: char)
    ensures !IsAsciiUpper(l)
    ensures IsAsciiUpper(c) ==> IsAsciiLower(l)
    ensures !IsAsciiUpper(c) ==> l == c
  {
    if IsAsciiUpper(c) then (c as int + 32) as char else c
  }

  function LowerAll(s: string): (r: string)
    ensures |r| == |s|
  {
    seq(|s|, i requires 0 <= i < |s| => ToLower(s[i]))
  }

  /** Python's `str.capitalize`: first character upper-cased, the rest lower-cased. */
  function Capitalize(s: string): (r: string)
    ensures |r| == |s|
    ensures |s| > 0 ==> r[0] == ToUpper(s[0])
    ensures forall i :: 0 < i < |s| ==> r[i] == ToLower(s[i])
    ensures forall i :: 0 < i < |r| ==> !IsAsciiUpper(r[i])
    ensures |r| > 0 ==> !IsAsciiLower(r[0])
  {
    if |s| == 0 then "" else [ToUpper(s[0])] + LowerAll(s[1..])
  }

  /** Capitalizing twice is capitalizing once. */
  lemma CapitalizeIdempotent(s: string)
    ensures Capitalize(Capitalize(s)) == Capitalize(s)
  {
  }

  /** Capitalize ignores the case the input was typed in. */
  lemma CapitalizeIgnoresCase(s: string, t: string)
    requires LowerAll(s) == LowerAll(t)
    ensures Capitalize(s) == Capitalize(t)
  {
    if |s| > 0 {
      assert ToLower(s[0]) == LowerAll(s)[0] == LowerAll(t)[0] == ToLower(t[0]);
      assert ToUpper(s[0]) == ToUpper(t[0]);
      assert LowerAll(s[1..]) == LowerAll(s)[1..];
      assert LowerAll(t[1..]) == LowerAll(t)[1..];
    }
  }

  /** Position of the first occurrence of `c` in `s`, or `|s|` when there is none. */
  function IndexOf(s: string, c: char): (i: nat)
    ensures i <= |s|
    ensures forall k :: 0 <= k < i ==> s[k] != c
    ensures i < |s| ==> s[i] == c
    ensures i == |s| <==> c !in s
  {
    if |s| == 0 then 0
    else if s[0] == c then 0
    else 1 + IndexOf(s[1..], c)
  }

  /** Python's `s.split(c)[0]`: the text before the first `c`, or all of `s`. */
  function FirstField(s: string, c: char): (f: string)
    ensures f <= s
    ensures c !in f
    ensures f == s <==> c !in s
    ensures f != s ==> s == f + [c] + s[|f| + 1..]
  {
    var i := IndexOf(s, c);
    assert c !in s[..i] by {
      forall k | 0 <= k < i ensures s[..i][k] != c { assert s[..i][k] == s[k]; }
    }
    if i < |s| then
      assert s == s[..i] + [s[i]] + s[i + 1..];
      s[..i]
    else s
  }

  /** The first field is the one prefix of `s` that is free of `c` and ends
      either at `s`'s end or just before a `c`. */
  lemma FirstFieldUnique(s: string, c: char, p: string)
    requires p <= s && c !in p
    requires p == s || s[|p|] == c
    ensures p == FirstField(s, c)
  {
    var f := FirstField(s, c);
    if |p| == |f| {
      assert p == s[..|p|] == f;
    }
  }

  function Digit(d: nat): (c: char)
    requires d < 10
    ensures IsDigit(c)
    ensures c as int - '0' as int == d
  {
    ('0' as int + d) as char
  }

  /** Decimal rendering of a natural number, as `f"{n}"` produces it. */
  function NatToString(n: nat): (s: string)
    ensures |s| >= 1
    ensures forall k :: 0 <= k < |s| ==> IsDigit(s[k])
    ensures s[0] == '0' ==> n == 0 && |s| == 1
    decreases n
  {
    if n < 10 then [Digit(n)]
    else NatToString(n / 10) + [Digit(n % 10)]
  }

  /** The number a string of decimal digits denotes (reference reading of `NatToString`). */
  function DigitsValue(s: string): nat
    requires forall k :: 0 <= k < |s| ==> IsDigit(s[k])
    decreases |s|
  {
    if |s| == 0 then 0
    else 10 * DigitsValue(s[..|s| - 1]) + DigitOf(s[|s| - 1])
  }

  function DigitOf(c: char): (d: nat)
    requires IsDigit(c)
    ensures d < 10
  {
    c as int - '0' as int
  }

  /** Reading back the rendered digits yields the number. */
  lemma {:induction false} NatToStringRoundTrip(n: nat)
    ensures DigitsValue(NatToString(n)) == n
    decreases n
  {
    if n >= 10 {
      var s := NatToString(n);
      NatToStringRoundTrip(n / 10);
      assert s[..|s| - 1] == NatToString(n / 10);
    }
  }

  /** Distinct numbers render as distinct strings. */
  lemma NatToStringInjective(m: nat, n: nat)
    requires NatToString(m) == NatToString(n)
    ensures m == n
  {
    NatToStringRoundTrip(m);
    NatToStringRoundTrip(n);
  }
}
